=== FILE: README.md ===
# Multi-step form wizard: a Dafny model

This project models the step-tracking core of a three-page sign-up form.
Page 0 asks for an email, page 1 for a password and its confirmation, and
page 2 for a country. Two pieces make up the core.

- **The wizard store** (`src/lib/store/form.ts`, module `FormStore` in
  `form_store.dfy`). It holds the current step and the field values
  recorded so far. A fresh store is `Initial`: step 0 and no values. Three
  transitions act on it: `IncreaseStep`, `DecreaseStep` (clamped at 0) and
  `SetValues` (a shallow merge in which the payload wins). Each is a pure
  function from state to state.
- **The step controller and its validation rules**
  (`src/components/ui/form.tsx`). `FormSchema` (`form_schema.dfy`) states
  the schema's per-field checks. It also states the cross-field rule that
  the confirmation must equal the password. The checks produce an issue
  list in which every failing check is reported under its field, with the
  schema's own message. `FormController` (`form_controller.dfy`) states:
  - `ShouldValidate`: which fields each step checks;
  - `OnNext`: the guarded "Next" transition;
  - `Enabled`: which buttons the page offers.

  Runs of offered actions are folded by `Run`, and `Admissible` says every
  action in a run was offered.

The email-format test belongs to the validation library. Every member that
needs it takes it as a parameter `isEmail: string -> bool`. The result of
the asynchronous validation call in `onNext` is the abstract `Outcome`
`Valid | Invalid | Errored`, where `Errored` is a rejected promise. The
intended schema-derived outcome for steps 0 to 2 is `TriggerOutcome`, and
`StepValidationRules` connects it to the field rules. The outcome as the
validation library produces it is `TriggerOutcomeAsRun`; it differs on
step 1 (see Findings).

## Model

| member | source | states |
|---|---|---|
| FormStore.Initial | src/lib/store/form.ts:13-20 | a fresh store is on step 0, where going back changes nothing, and holds no values, so its first merge records exactly the payload |
| FormStore.IncreaseStep | src/lib/store/form.ts:15 | the step goes up by exactly one with no upper bound; the values are untouched |
| FormStore.DecreaseStep | src/lib/store/form.ts:16 | the step never grows; it stays put exactly when it is 0 and otherwise drops by one; the values are untouched |
| FormStore.SetValues | src/lib/store/form.ts:18-19 | the merged key set is the union of old keys and payload keys; payload keys take the payload's value; every other key keeps its old value; the step is untouched |
| FormStore.DecreaseUndoesIncrease | src/lib/store/form.ts:15-16 | retreating after advancing gives back the original state |
| FormStore.IncreaseUndoesDecrease | src/lib/store/form.ts:15-16 | advancing after retreating gives back the state if and only if the step was not 0; from 0 the clamp makes the round trip land on step 1 |
| FormStore.SetValuesEmpty | src/lib/store/form.ts:19 | merging an empty payload is a no-op |
| FormStore.SetValuesIdempotent | src/lib/store/form.ts:19 | merging the same payload twice equals merging it once |
| FormStore.SetValuesKeepsKeys | src/lib/store/form.ts:18-19 | a recorded key survives any merge and keeps its value unless the payload overrides it |
| FormStore.StepAndMergeCommute | src/lib/store/form.ts:15-19 | step changes and merges act on disjoint parts of the state, so their order does not matter |
| FormSchema.NameInjective | src/components/ui/form.tsx:44-52 | the four fields are stored under four distinct names |
| FormSchema.FieldIssues | src/components/ui/form.tsx:44-52 | every failure a field's own checks report is filed under that field and is never the mismatch error; an empty report implies the field holds a string (its full meaning is FieldIssuesMatchRule and ConfirmationIssuesMatchRule) |
| FormSchema.RefineIssues | src/components/ui/form.tsx:53-56 | the refinement reports only "Passwords do not match" under confirmPassword, and reports it iff both passwords hold strings that differ |
| FormSchema.FieldIssuesMatchRule | src/components/ui/form.tsx:45-51 | email passes its own checks iff it is present, non-empty and in email format; password iff present with at least 8 characters; country iff present |
| FormSchema.ConfirmationIssuesMatchRule | src/components/ui/form.tsx:50-56 | the confirmation's checks plus the equality rule report nothing iff the confirmation is present, non-empty and, when a password is present, equal to it |
| FormSchema.SchemaIssues | src/components/ui/form.tsx:43-56 | for every field, the whole schema reports no issue under it iff that field's rule holds: email present, non-empty and well formed; password at least 8 characters; confirmation present, non-empty and, when a password is present, equal to it; country present |
| FormSchema.SchemaIssuesAsRun | src/components/ui/form.tsx:43-56 | the issues as the validation library produces them, with the refinement skipped while a field is unset: it equals SchemaIssues once every field holds a string, and for every field reports no issue under it iff the field's as-run rule holds, where the confirmation must be present and non-empty and must equal the password only once every field holds a string |
| FormSchema.MismatchUnreportedWithoutCountry | src/components/ui/form.tsx:43-56 | with country unset, a long enough password and a different confirmation raise nothing under either password field as run, while the intended schema reports the mismatch |
| FormSchema.PasswordLengthBoundary | src/components/ui/form.tsx:46-49 | an 8-character password passes the length rule; a 7-character one fails with exactly the too-short check (that the check's message says "more than 8" is noted in the doc comment) |
| FormController.ShouldValidate | src/components/ui/form.tsx:30-41 | step 0 checks email, step 1 password and confirmPassword, step 2 country, and every other step gives no field list, each as an if-and-only-if |
| FormController.TriggerOutcome | src/components/ui/form.tsx:84-86 | the intended trigger: for a field list it never rejects and passes iff every listed field satisfies its intended rule; without a list its outcome is the library's |
| FormController.TriggerOutcomeAsRun | src/components/ui/form.tsx:84-86 | the trigger as run: for a field list it never rejects and passes iff every listed field satisfies its as-run rule; without a list its outcome is the library's; it agrees with TriggerOutcome whenever every field holds a string |
| FormController.StepValidationRules | src/components/ui/form.tsx:83-87 | on steps 0 to 2 validation never errors and passes iff the step's fields satisfy their rules: email on 0, password and confirmation on 1, country on 2 |
| FormController.OnNext | src/components/ui/form.tsx:83-94 | a failed or rejected validation leaves the whole state unchanged; a passed one advances by one and merges the full form snapshot, keeping every prior key |
| FormController.NextWithSchema | src/components/ui/form.tsx:83-94 | Next under the intended schema: on page 0, 1 or 2 it advances one page and records the snapshot over the earlier values exactly when that page's rule holds (email; password with a non-empty, equal confirmation; country), and otherwise changes nothing |
| FormController.NextAsRun | src/components/ui/form.tsx:83-94 | Next as the program runs it: off step 1 it is the intended transition; on step 1 it advances exactly when the password has at least 8 characters and the confirmation is non-empty, checking their equality only once every field holds a string, and then records the snapshot over the earlier values; otherwise it changes nothing |
| FormController.OfferedButtons | src/components/ui/form.tsx:181-194 | Prev is offered exactly where going back would change the step, Send exactly on step 2, and in every state exactly one of Next and Send |
| FormController.Apply | src/components/ui/form.tsx:181-194 | Prev goes back one page, staying on page 0, and keeps the values; a Next whose validation passes advances one page and merges the snapshot, payload winning; Send and a Next whose validation does not pass leave the store unchanged; so no press loses a recorded key or moves more than one page |
| FormController.EnabledActionKeepsRange | src/components/ui/form.tsx:181-194 | from a step in [0, 2], any action the buttons offer stays in [0, 2] |
| FormController.StepStaysInRange | src/components/ui/form.tsx:181-194 | any run of offered actions from a step in [0, 2] ends in [0, 2] |
| FormController.InitialStepStaysInRange | src/components/ui/form.tsx:181-194 | from a fresh store, offered actions keep the step in [0, 2] |
| FormController.ValuesOnlyGrow | src/components/ui/form.tsx:83-94 | no run of actions, offered or not, removes a recorded field name |
| FormController.ClimbAdvances | src/lib/store/form.ts:15 | without the button guard, n passing Next presses raise the step by exactly n, so the store alone has no upper bound |
| FormController.EveryPageReachable | src/components/ui/form.tsx:183-194 | each of steps 0, 1 and 2 is reached from a fresh store by offered actions; a third Next press is not offered |
| FormController.EmailStepScenario | src/components/ui/form.tsx:83-94 | a rejected email leaves a fresh store unchanged; "a@b.com" moves it to step 1 with exactly that email recorded |
| FormController.PasswordStepScenario | src/components/ui/form.tsx:46-56 | under the intended schema, on step 1 a short password and a mismatched confirmation are both refused, and equal passwords of 11 characters advance to step 2 with the pair recorded over the earlier values |
| FormController.MismatchAdvancesAsRun | src/components/ui/form.tsx:83-94 | as run, Next on step 1 with a long enough password and a different confirmation advances to step 2 and records the pair; under the intended schema the state is unchanged |
| FormController.ValidInputsReachLastPage | src/components/ui/form.tsx:83-194 | schema-valid inputs take a fresh store through the two offered Next presses to step 2, where Send is offered, with the final snapshot recorded |

## Left out

- The Send button's submission (src/components/ui/form.tsx:75-81) is left out. It sends a console log and an analytics event to an external global and never touches the store, so `Apply` leaves the store unchanged on Send.
- src/lib/segment.ts, the pages and the header are left out. They hold routing and markup only.
- The email-format regular expression is not modelled. It belongs to the validation library, so it is the parameter `isEmail`.
- What the form library's trigger does with no field list (steps 3 and above) is not modelled. `TriggerOutcome` takes it as the parameter `unspecified`.
- Which failing checks the validation library reports, and in what order, is not modelled. The model reports every failing check of a present string, in no particular order, and a single "Required" issue for an absent field; "Required" is that library's default text and does not appear in src/components/ui/form.tsx.
- FormController.PasswordStepScenario: follows the intended schema; the running form accepts the mismatched pair on step 1 (see Findings and FormController.MismatchAdvancesAsRun).
- FormController.TriggerOutcome: the intended trigger; as run, on step 1 with the country unset the equality check is skipped (see FormController.TriggerOutcomeAsRun and Findings).
- FormController.NextWithSchema: follows the intended schema; on step 1 the running form is FormController.NextAsRun (see Findings).
- FormController.StepValidationRules: states the intended rules; on step 1 the running form does not check password equality, because the country is still unset (see Findings).
- FormSchema.ConfirmationIssuesMatchRule: states the intended confirmation rule; the running form applies the equality part only once every field holds a string (see Findings).
- FormSchema.SchemaIssues: the intended issue list, which the controller uses; the list as the library produces it is FormSchema.SchemaIssuesAsRun.
- The promise sequencing in `onNext` is not modelled. It is one atomic transition, and a rejected validation (`Errored`) is logged and changes nothing.
- The store-to-form synchronisation effect (src/components/ui/form.tsx:66-73), the rendering and the styling are left out.
- String length is not modelled in UTF-16 code units. It is the length of a Dafny `seq<char>`, so strings outside the basic multilingual plane may differ.
- The step is not modelled as a floating-point JavaScript number. It is a `nat`, because it only ever starts at 0 and moves by one.
- The Next handler's step-2 validation is unreachable through the buttons, because step 2 shows Send instead of Next. The model still states it in `ShouldValidate` and `StepValidationRules`.

## Findings

| source | as written | input that shows it | evidently intended | confidence | as-written member | corrected member |
|---|---|---|---|---|---|---|
| src/components/ui/form.tsx:43-56 | the equality check is an object-level `.refine`. The validation library runs it only when every field parses. On step 1 `country` is still unset, because its control is rendered only on step 2 (form.tsx:151-178), so the refinement never runs when Next is pressed there | step 1, form values `{email: "a@b.com", password: "longenough1", confirmPassword: "different"}`, Next pressed | a confirmation that differs from the password keeps the form on step 1 | not executed; rests on the validation library's rule that an object refinement runs only after every field has parsed | FormController.MismatchAdvancesAsRun | FormController.StepValidationRules |

=== FILE: form_controller.dfy ===
/**
 The step controller of the form component: which fields each step
 validates, the guarded "Next" transition, and the actions the rendered
 buttons make available. Together with the store they form a finite-state
 machine over the step index.
 */
module FormController {
  import opened FormStore
  import opened FormSchema

  /** The argument handed to the validation trigger: a list of field names,
      or nothing at all. */
  datatype Validation = Fields(names: seq<Field>) | Unspecified

  /** The fields a step must validate before the form may advance. */
  function ShouldValidate(step: int): (v: Validation)
    ensures v == Fields([Email]) <==> step == 0
    ensures v == Fields([Password, ConfirmPassword]) <==> step == 1
    ensures v == Fields([Country]) <==> step == 2
    ensures v.Unspecified? <==> step < 0 || step > 2
  {
    if step == 0 then Fields([Email])
    else if step == 1 then Fields([Password, ConfirmPassword])
    else if step == 2 then Fields([Country])
    else Unspecified
  }

  /** How the asynchronous validation settles: it resolves to true or
      false, or it rejects. */
  datatype Outcome = Valid | Invalid | Errored

  /** How a trigger settles against a given issue list: a field list
      passes when no issue sits under any of its names; what the trigger does
      without a field list belongs to the form library and is passed in as
      `unspecified`. */
  function Verdict(v: Validation, issues: seq<Issue>, unspecified: Outcome): (o: Outcome)
  {
    match v
    case Unspecified => unspecified
    case Fields(names) =>
      if forall i :: 0 <= i < |names| ==> !HasIssue(issues, names[i]) then Valid else Invalid
  }

  /** The intended trigger, run against the schema with its refinement
      always applied: for a field list it never rejects, and it passes
      exactly when every listed field satisfies its intended rule. The
      trigger as the validation library runs it is `TriggerOutcomeAsRun`. */
  function TriggerOutcome(v: Validation, form: FormValues, isEmail: string -> bool, unspecified: Outcome): (o: Outcome)
    ensures v.Unspecified? ==> o == unspecified
    ensures v.Fields? ==> o != Errored
    ensures v.Fields? ==> (o == Valid <==> forall i :: 0 <= i < |v.names| ==> FieldValid(form, v.names[i], isEmail))
  {
    Verdict(v, SchemaIssues(form, isEmail), unspecified)
  }

  /** The trigger as the validation library runs it, with the refinement
      skipped while a field holds no string: for a field list it passes
      exactly when every listed field satisfies its rule as run, and with
      every field present it agrees with the intended trigger. */
  function TriggerOutcomeAsRun(v: Validation, form: FormValues, isEmail: string -> bool, unspecified: Outcome): (o: Outcome)
    ensures AllFieldsPresent(form) ==> o == TriggerOutcome(v, form, isEmail, unspecified)
    ensures v.Unspecified? ==> o == unspecified
    ensures v.Fields? ==> o != Errored
    ensures v.Fields? ==> (o == Valid <==> forall i :: 0 <= i < |v.names| ==> FieldValidAsRun(form, v.names[i], isEmail))
  {
    Verdict(v, SchemaIssuesAsRun(form, isEmail), unspecified)
  }

  /** On each of the three steps the trigger passes exactly when that
      step's fields satisfy their rules. */
  lemma {:induction false} StepValidationRules(step: int, form: FormValues, isEmail: string -> bool, unspecified: Outcome)
    requires 0 <= step <= 2
    ensures TriggerOutcome(ShouldValidate(step), form, isEmail, unspecified) != Errored
    ensures step == 0 ==> (TriggerOutcome(ShouldValidate(step), form, isEmail, unspecified) == Valid
                           <==> EmailValid(form, isEmail))
    ensures step == 1 ==> (TriggerOutcome(ShouldValidate(step), form, isEmail, unspecified) == Valid
                           <==> PasswordValid(form) && ConfirmationValid(form))
    ensures step == 2 ==> (TriggerOutcome(ShouldValidate(step), form, isEmail, unspecified) == Valid
                           <==> CountryValid(form))
  {
    var names := ShouldValidate(step).names;
    var o := TriggerOutcome(ShouldValidate(step), form, isEmail, unspecified);
    if step == 1 {
      assert o == Valid <==> FieldValid(form, names[0], isEmail) && FieldValid(form, names[1], isEmail);
    } else {
      assert o == Valid <==> FieldValid(form, names[0], isEmail);
    }
  }

  /** The "Next" handler once validation has settled: on success it
      advances and merges the whole form snapshot into the store; on
      failure or rejection it changes nothing. */
  function OnNext(s: WizardState, snapshot: FormValues, outcome: Outcome): (r: WizardState)
    ensures outcome != Valid ==> r == s
    ensures outcome == Valid ==> r.step == s.step + 1
    ensures outcome == Valid ==> r.values.Keys == s.values.Keys + snapshot.Keys
    ensures outcome == Valid ==> forall k :: k in snapshot ==> r.values[k] == snapshot[k]
    ensures outcome == Valid ==> forall k :: k in s.values && k !in snapshot ==> r.values[k] == s.values[k]
  {
    if outcome == Valid then SetValues(IncreaseStep(s), snapshot) else s
  }

  /** "Next" with the outcome the intended schema gives for the current
      step: on each page it advances and records the snapshot exactly when
      that page's fields satisfy their rules, and otherwise changes
      nothing. */
  function NextWithSchema(s: WizardState, form: FormValues, isEmail: string -> bool, unspecified: Outcome): (r: WizardState)
    ensures s.step == 0 && EmailValid(form, isEmail) ==> r == WizardState(1, s.values + form)
    ensures s.step == 0 && !EmailValid(form, isEmail) ==> r == s
    ensures s.step == 1 && PasswordValid(form) && ConfirmationValid(form) ==> r == WizardState(2, s.values + form)
    ensures s.step == 1 && !(PasswordValid(form) && ConfirmationValid(form)) ==> r == s
    ensures s.step == 2 && CountryValid(form) ==> r == WizardState(3, s.values + form)
    ensures s.step == 2 && !CountryValid(form) ==> r == s
  {
    if s.step <= 2 then
      StepValidationRules(s.step, form, isEmail, unspecified);
      OnNext(s, form, TriggerOutcome(ShouldValidate(s.step), form, isEmail, unspecified))
    else
      OnNext(s, form, TriggerOutcome(ShouldValidate(s.step), form, isEmail, unspecified))
  }

  /** "Next" as the program runs it. Away from the password page it is the
      intended transition; on the password page it advances exactly when the
      password is long enough and the confirmation is non-empty, checking
      their equality only once every field holds a string. */
  function NextAsRun(s: WizardState, form: FormValues, isEmail: string -> bool, unspecified: Outcome): (r: WizardState)
    ensures s.step != 1 ==> r == NextWithSchema(s, form, isEmail, unspecified)
    ensures s.step == 1 ==> (r.step == 2 <==> PasswordValid(form) && ConfirmationValidAsRun(form))
    ensures s.step == 1 && PasswordValid(form) && ConfirmationValidAsRun(form) ==> r == WizardState(2, s.values + form)
    ensures s.step == 1 && !(PasswordValid(form) && ConfirmationValidAsRun(form)) ==> r == s
  {
    var v := ShouldValidate(s.step);
    assert s.step != 1 ==> TriggerOutcomeAsRun(v, form, isEmail, unspecified) == TriggerOutcome(v, form, isEmail, unspecified) by {
      if s.step == 0 || s.step == 2 {
        assert FieldValidAsRun(form, v.names[0], isEmail) == FieldValid(form, v.names[0], isEmail);
      }
    }
    assert s.step == 1 ==> (TriggerOutcomeAsRun(v, form, isEmail, unspecified) == Valid
                            <==> FieldValidAsRun(form, v.names[0], isEmail) && FieldValidAsRun(form, v.names[1], isEmail));
    OnNext(s, form, TriggerOutcomeAsRun(ShouldValidate(s.step), form, isEmail, unspecified))
  }

  /** What the user can do: press Prev, press Next (whose validation
      settles with `outcome` on the form's current values `snapshot`), or
      press Send. */
  datatype Action = Prev | Next(outcome: Outcome, snapshot: FormValues) | Send

  /** Which buttons the rendered form offers: Prev is disabled on the first
      step, and on step 2 the Next button is replaced by Send. */
  predicate Enabled(s: WizardState, a: Action)
  {
    match a
    case Prev => s.step != 0
    case Next(_, _) => s.step != 2
    case Send => s.step == 2
  }

  /** The store after an action. Send submits the form to collaborators
      outside the store and leaves the store as it is. */
  function Apply(s: WizardState, a: Action): (r: WizardState)
    ensures s.values.Keys <= r.values.Keys
    ensures r.step <= s.step + 1 && s.step <= r.step + 1
    ensures a == Send ==> r == s
    ensures a == Prev ==> r.values == s.values && r.step == (if s.step == 0 then 0 else s.step - 1)
    ensures a.Next? && a.outcome == Valid ==> r == WizardState(s.step + 1, s.values + a.snapshot)
    ensures a.Next? && a.outcome != Valid ==> r == s
  {
    match a
    case Prev => DecreaseStep(s)
    case Next(outcome, snapshot) => OnNext(s, snapshot, outcome)
    case Send => s
  }

  /** The store after a sequence of actions. */
  function Run(s: WizardState, trace: seq<Action>): (r: WizardState)
    decreases |trace|
  {
    if |trace| == 0 then s else Run(Apply(s, trace[0]), trace[1..])
  }

  /** Every action of the trace is offered in the state it is taken in. */
  predicate Admissible(s: WizardState, trace: seq<Action>)
    decreases |trace|
  {
    |trace| == 0 || (Enabled(s, trace[0]) && Admissible(Apply(s, trace[0]), trace[1..]))
  }

  /** Prev is offered exactly where going back would change the step, Send
      exactly on the last page, and in every state exactly one of Next and
      Send. */
  lemma OfferedButtons(s: WizardState, outcome: Outcome, snapshot: FormValues)
    ensures Enabled(s, Prev) <==> DecreaseStep(s) != s
    ensures Enabled(s, Send) <==> s.step == 2
    ensures Enabled(s, Next(outcome, snapshot)) <==> !Enabled(s, Send)
  {
  }

  /** One offered action keeps the step within the three pages. */
  lemma EnabledActionKeepsRange(s: WizardState, a: Action)
    requires s.step <= 2
    requires Enabled(s, a)
    ensures Apply(s, a).step <= 2
  {
  }

  /** Taking only offered actions, the step never leaves [0, 2]. */
  lemma {:induction false} StepStaysInRange(s: WizardState, trace: seq<Action>)
    requires s.step <= 2
    requires Admissible(s, trace)
    ensures Run(s, trace).step <= 2
    decreases |trace|
  {
    if |trace| > 0 {
      EnabledActionKeepsRange(s, trace[0]);
      StepStaysInRange(Apply(s, trace[0]), trace[1..]);
    }
  }

  /** From a fresh store, the buttons alone never take the form past its
      last page. */
  lemma InitialStepStaysInRange(trace: seq<Action>)
    requires Admissible(Initial(), trace)
    ensures Run(Initial(), trace).step <= 2
  {
    StepStaysInRange(Initial(), trace);
  }

  /** Whatever the actions, a recorded field name is never forgotten. */
  lemma {:induction false} ValuesOnlyGrow(s: WizardState, trace: seq<Action>)
    ensures s.values.Keys <= Run(s, trace).values.Keys
    decreases |trace|
  {
    if |trace| > 0 {
      ValuesOnlyGrow(Apply(s, trace[0]), trace[1..]);
    }
  }

  /** `n` presses of Next, each with a passing validation on an empty form. */
  function Climb(n: nat): (t: seq<Action>)
    ensures |t| == n
  {
    seq(n, _ => Next(Valid, map[]))
  }

  /** Without the button guard, passing Next presses raise the step
      without bound. */
  lemma {:induction false} ClimbAdvances(s: WizardState, n: nat)
    ensures Run(s, Climb(n)).step == s.step + n
    decreases n
  {
    if n > 0 {
      assert Climb(n)[0] == Next(Valid, map[]);
      assert Climb(n)[1..] == Climb(n - 1);
      ClimbAdvances(Apply(s, Climb(n)[0]), n - 1);
    }
  }

  /** Each of the three pages can be reached from a fresh store by offered
      actions; a third Next press is not offered. */
  lemma EveryPageReachable(k: nat)
    requires k <= 2
    ensures Admissible(Initial(), Climb(k))
    ensures Run(Initial(), Climb(k)).step == k
    ensures !Admissible(Initial(), Climb(3))
  {
    ClimbAdvances(Initial(), k);
    var s1 := Apply(Initial(), Next(Valid, map[]));
    var s2 := Apply(s1, Next(Valid, map[]));
    assert Climb(1)[1..] == [];
    assert Climb(2)[1..] == Climb(1);
    assert Climb(3)[1..] == Climb(2);
    assert Climb(2)[1..][1..] == [];
    assert Admissible(s2, []);
    assert Admissible(s1, Climb(1));
    assert !Admissible(s2, Climb(1));
  }

  /** The email step: a value the format test rejects leaves the store as
      it is; a valid one advances to step 1 and records it. */
  lemma EmailStepScenario(isEmail: string -> bool, unspecified: Outcome)
    requires !isEmail("bad")
    requires isEmail("a@b.com")
    ensures NextWithSchema(Initial(), map["email" := "bad"], isEmail, unspecified) == Initial()
    ensures NextWithSchema(Initial(), map["email" := "a@b.com"], isEmail, unspecified)
            == WizardState(1, map["email" := "a@b.com"])
  {
  }

  /** The password step: a short password, then a mismatched confirmation,
      are refused; equal passwords of at least eight characters advance. */
  lemma PasswordStepScenario(values: Values, isEmail: string -> bool, unspecified: Outcome)
    ensures var s := WizardState(1, values);
            var short := map["password" := "short", "confirmPassword" := "short"];
            var mismatch := map["password" := "longenough1", "confirmPassword" := "different"];
            var good := map["password" := "longenough1", "confirmPassword" := "longenough1"];
            && NextWithSchema(s, short, isEmail, unspecified) == s
            && NextWithSchema(s, mismatch, isEmail, unspecified) == s
            && NextWithSchema(s, good, isEmail, unspecified) == WizardState(2, values + good)
  {
  }

  /** The running form on the password page: because the country is still
      unset, the library skips the equality refinement, so a mismatched but
      long enough pair advances to step 2, whereas the intended schema keeps
      the form on step 1. */
  lemma MismatchAdvancesAsRun(values: Values, isEmail: string -> bool, unspecified: Outcome)
    ensures var s := WizardState(1, values);
            var form := map["email" := "a@b.com", "password" := "longenough1", "confirmPassword" := "different"];
            && NextAsRun(s, form, isEmail, unspecified) == WizardState(2, values + form)
            && NextWithSchema(s, form, isEmail, unspecified) == s
  {
  }

  /** Inputs that satisfy the schema take a fresh store through both Next
      presses the buttons offer, to the page where Send is offered, with the
      whole final snapshot recorded. */
  lemma ValidInputsReachLastPage(isEmail: string -> bool, unspecified: Outcome)
    requires isEmail("a@b.com")
    ensures var f0 := map["email" := "a@b.com"];
            var f1 := map["email" := "a@b.com", "password" := "longenough1", "confirmPassword" := "longenough1"];
            var s1 := NextWithSchema(Initial(), f0, isEmail, unspecified);
            var s2 := NextWithSchema(s1, f1, isEmail, unspecified);
            && Enabled(Initial(), Next(Valid, f0)) && s1 == WizardState(1, f0)
            && Enabled(s1, Next(Valid, f1)) && s2 == WizardState(2, f1)
            && Enabled(s2, Send)
  {
  }
}

=== FILE: form_schema.dfy ===
/**
 The form's validation schema: four string fields, per-field checks, and
 one cross-field rule tying the password confirmation to the password.

 The email format test belongs to the validation library and is not part
 of this model; every member that needs it takes it as the parameter
 `isEmail`.
 */
module FormSchema {

  datatype Option<T> = None | Some(value: T)

  /** The fields of the form. */
  datatype Field = Email | Password | ConfirmPassword | Country

  /** The name a field is registered and stored under. */
  function Name(f: Field): string
  {
    match f
    case Email => "email"
    case Password => "password"
    case ConfirmPassword => "confirmPassword"
    case Country => "country"
  }

  /** Distinct fields are stored under distinct names. */
  lemma NameInjective(f: Field, g: Field)
    ensures Name(f) == Name(g) <==> f == g
  {
  }

  /** The form's current values, keyed by field name; a field that was
      never filled in has no entry. */
  type FormValues = map<string, string>

  function Lookup(form: FormValues, f: Field): Option<string>
  {
    if Name(f) in form then Some(form[Name(f)]) else None
  }

  /** Minimum password length of the `min(8)` rule. */
  const MinPasswordLength: nat := 8

  /** The individual checks the schema can report as failed, each with the
      message shown for it. The text for `Missing` is the validation
      library's default; the others are the schema's own. */
  datatype Check =
    | Missing              // no string at all: "Required"
    | InvalidEmail         // email format test failed: "invalid email"
    | EmailRequired        // empty email: "Email is required"
    | PasswordRequired     // empty password: "Password is required"
    | PasswordTooShort     // shorter than MinPasswordLength: "Password must have more than 8 characters"
    | ConfirmationRequired // empty confirmation: "Password confirmation is required"
    | PasswordsDoNotMatch  // confirmation differs: "Passwords do not match"

  /** A failed check attached to the field whose error it is shown under. */
  datatype Issue = Issue(path: Field, check: Check)

  /** The one-issue list when `c` holds, the empty list otherwise. */
  function IssueIf(c: bool, i: Issue): seq<Issue>
  {
    if c then [i] else []
  }

  /** Whether some issue in the list is attached to field `f`. */
  predicate HasIssue(issues: seq<Issue>, f: Field)
  {
    exists i :: 0 <= i < |issues| && issues[i].path == f
  }

  // The rules field by field, stated directly.

  predicate EmailValid(form: FormValues, isEmail: string -> bool)
  {
    Lookup(form, Email).Some? && |Lookup(form, Email).value| >= 1 && isEmail(Lookup(form, Email).value)
  }

  predicate PasswordValid(form: FormValues)
  {
    Lookup(form, Password).Some? && |Lookup(form, Password).value| >= MinPasswordLength
  }

  predicate ConfirmationValid(form: FormValues)
  {
    && Lookup(form, ConfirmPassword).Some?
    && |Lookup(form, ConfirmPassword).value| >= 1
    && (Lookup(form, Password).Some? ==> Lookup(form, Password) == Lookup(form, ConfirmPassword))
  }

  predicate CountryValid(form: FormValues)
  {
    Lookup(form, Country).Some?
  }

  predicate FieldValid(form: FormValues, f: Field, isEmail: string -> bool)
  {
    match f
    case Email => EmailValid(form, isEmail)
    case Password => PasswordValid(form)
    case ConfirmPassword => ConfirmationValid(form)
    case Country => CountryValid(form)
  }

  /** The checks one field fails. All checks of a present string run; an
      absent field fails only `Missing`.
      Every issue stays under the field checked, and none of them is the
      cross-field mismatch. */
  function FieldIssues(form: FormValues, f: Field, isEmail: string -> bool): (r: seq<Issue>)
    ensures forall i :: 0 <= i < |r| ==> r[i].path == f
    ensures forall i :: 0 <= i < |r| ==> r[i].check != PasswordsDoNotMatch
    ensures r == [] ==> Lookup(form, f).Some?
  {
    match Lookup(form, f)
    case None => [Issue(f, Missing)]
    case Some(v) =>
      match f
      case Email =>
        IssueIf(!isEmail(v), Issue(Email, InvalidEmail)) + IssueIf(|v| < 1, Issue(Email, EmailRequired))
      case Password =>
        IssueIf(|v| < 1, Issue(Password, PasswordRequired))
        + IssueIf(|v| < MinPasswordLength, Issue(Password, PasswordTooShort))
      case ConfirmPassword => IssueIf(|v| < 1, Issue(ConfirmPassword, ConfirmationRequired))
      case Country => []
  }

  /** The cross-field rule: a confirmation that differs from the password
      is reported under `confirmPassword`, and nothing else is reported. */
  function RefineIssues(form: FormValues): (r: seq<Issue>)
    ensures forall i :: 0 <= i < |r| ==> r[i] == Issue(ConfirmPassword, PasswordsDoNotMatch)
    ensures |r| > 0 <==> && Lookup(form, Password).Some? && Lookup(form, ConfirmPassword).Some?
                         && Lookup(form, Password) != Lookup(form, ConfirmPassword)
  {
    match (Lookup(form, Password), Lookup(form, ConfirmPassword))
    case (Some(p), Some(c)) => IssueIf(p != c, Issue(ConfirmPassword, PasswordsDoNotMatch))
    case _ => []
  }

  /** The issues of all four fields' own checks; a field has an issue in
      the whole list exactly when its own checks report one. */
  function AllFieldIssues(form: FormValues, isEmail: string -> bool): (r: seq<Issue>)
    ensures forall f :: HasIssue(r, f) <==> HasIssue(FieldIssues(form, f, isEmail), f)
  {
    var e := FieldIssues(form, Email, isEmail);
    var p := FieldIssues(form, Password, isEmail);
    var c := FieldIssues(form, ConfirmPassword, isEmail);
    var k := FieldIssues(form, Country, isEmail);
    assert forall f :: HasIssue(e + p + c + k, f) <==> HasIssue(FieldIssues(form, f, isEmail), f) by {
      forall f
        ensures HasIssue(e + p + c + k, f) <==> HasIssue(FieldIssues(form, f, isEmail), f)
      {
        HasIssueAppend(e + p + c, k, f);
        HasIssueAppend(e + p, c, f);
        HasIssueAppend(e, p, f);
      }
    }
    e + p + c + k
  }

  /** Every issue the whole schema reports for a form. No issue is reported
      under a field exactly when that field's rule holds; for
      `confirmPassword` this includes equality with a present password. */
  function SchemaIssues(form: FormValues, isEmail: string -> bool): (r: seq<Issue>)
    ensures forall f :: !HasIssue(r, f) <==> FieldValid(form, f, isEmail)
  {
    var fields := AllFieldIssues(form, isEmail);
    var refine := RefineIssues(form);
    assert forall f :: !HasIssue(fields + refine, f) <==> FieldValid(form, f, isEmail) by {
      forall f
        ensures !HasIssue(fields + refine, f) <==> FieldValid(form, f, isEmail)
      {
        HasIssueAppend(fields, refine, f);
        if f == ConfirmPassword {
          HasIssueAppend(FieldIssues(form, f, isEmail), refine, f);
          ConfirmationIssuesMatchRule(form, isEmail);
        } else {
          FieldIssuesMatchRule(form, f, isEmail);
        }
      }
    }
    fields + refine
  }

  /** Every field holds a string, so the object as a whole parses. */
  predicate AllFieldsPresent(form: FormValues)
  {
    && Lookup(form, Email).Some? && Lookup(form, Password).Some?
    && Lookup(form, ConfirmPassword).Some? && Lookup(form, Country).Some?
  }

  /** The confirmation rule as the validation library applies it: its own
      checks always, the equality with the password only once every field
      holds a string. */
  predicate ConfirmationValidAsRun(form: FormValues)
  {
    && Lookup(form, ConfirmPassword).Some?
    && |Lookup(form, ConfirmPassword).value| >= 1
    && (AllFieldsPresent(form) ==> Lookup(form, Password) == Lookup(form, ConfirmPassword))
  }

  /** The rules as the validation library applies them; only the
      confirmation differs from the intended `FieldValid`. */
  predicate FieldValidAsRun(form: FormValues, f: Field, isEmail: string -> bool)
  {
    if f == ConfirmPassword then ConfirmationValidAsRun(form) else FieldValid(form, f, isEmail)
  }

  /** The schema's issues as the validation library produces them: the
      object-level refinement runs only once every field holds a string.
      No issue is reported under a field exactly when its rule as run holds,
      and with every field present the list is the intended one. */
  function SchemaIssuesAsRun(form: FormValues, isEmail: string -> bool): (r: seq<Issue>)
    ensures AllFieldsPresent(form) ==> r == SchemaIssues(form, isEmail)
    ensures forall f :: !HasIssue(r, f) <==> FieldValidAsRun(form, f, isEmail)
  {
    var fields := AllFieldIssues(form, isEmail);
    var refine := if AllFieldsPresent(form) then RefineIssues(form) else [];
    assert forall f :: !HasIssue(fields + refine, f) <==> FieldValidAsRun(form, f, isEmail) by {
      forall f
        ensures !HasIssue(fields + refine, f) <==> FieldValidAsRun(form, f, isEmail)
      {
        HasIssueAppend(fields, refine, f);
        if f == ConfirmPassword {
          if AllFieldsPresent(form) {
            HasIssueAppend(FieldIssues(form, f, isEmail), refine, f);
            ConfirmationIssuesMatchRule(form, isEmail);
          } else {
            ConfirmationOwnChecks(form, isEmail);
          }
        } else {
          FieldIssuesMatchRule(form, f, isEmail);
        }
      }
    }
    fields + refine
  }

  lemma HasIssueAppend(a: seq<Issue>, b: seq<Issue>, f: Field)
    ensures HasIssue(a + b, f) <==> HasIssue(a, f) || HasIssue(b, f)
  {
    if HasIssue(a + b, f) {
      var i :| 0 <= i < |a + b| && (a + b)[i].path == f;
      if i >= |a| {
        assert b[i - |a|].path == f;
      }
    }
    if HasIssue(a, f) {
      var j :| 0 <= j < |a| && a[j].path == f;
      assert (a + b)[j].path == f;
    }
    if HasIssue(b, f) {
      var j :| 0 <= j < |b| && b[j].path == f;
      assert (a + b)[|a| + j].path == f;
    }
  }

  lemma HasIssueIf(c: bool, i: Issue, f: Field)
    ensures HasIssue(IssueIf(c, i), f) <==> c && i.path == f
  {
    if c && i.path == f {
      assert IssueIf(c, i)[0].path == f;
    }
  }

  /** Email, password and country report nothing under their own name
      exactly when their rule holds. */
  lemma FieldIssuesMatchRule(form: FormValues, f: Field, isEmail: string -> bool)
    requires f != ConfirmPassword
    ensures !HasIssue(FieldIssues(form, f, isEmail), f) <==> FieldValid(form, f, isEmail)
  {
    match Lookup(form, f)
    case None =>
      assert FieldIssues(form, f, isEmail)[0].path == f;
    case Some(v) =>
      if f == Email {
        var a, b := IssueIf(!isEmail(v), Issue(Email, InvalidEmail)), IssueIf(|v| < 1, Issue(Email, EmailRequired));
        assert FieldIssues(form, f, isEmail) == a + b;
        HasIssueAppend(a, b, f);
        HasIssueIf(!isEmail(v), Issue(Email, InvalidEmail), f);
        HasIssueIf(|v| < 1, Issue(Email, EmailRequired), f);
      } else if f == Password {
        var a, b := IssueIf(|v| < 1, Issue(Password, PasswordRequired)),
                    IssueIf(|v| < MinPasswordLength, Issue(Password, PasswordTooShort));
        assert FieldIssues(form, f, isEmail) == a + b;
        HasIssueAppend(a, b, f);
        HasIssueIf(|v| < 1, Issue(Password, PasswordRequired), f);
        HasIssueIf(|v| < MinPasswordLength, Issue(Password, PasswordTooShort), f);
      }
  }

  /** The confirmation's own checks pass exactly when it holds a non-empty
      string. */
  lemma ConfirmationOwnChecks(form: FormValues, isEmail: string -> bool)
    ensures !HasIssue(FieldIssues(form, ConfirmPassword, isEmail), ConfirmPassword)
            <==> Lookup(form, ConfirmPassword).Some? && |Lookup(form, ConfirmPassword).value| >= 1
  {
    var c := FieldIssues(form, ConfirmPassword, isEmail);
    match Lookup(form, ConfirmPassword)
    case None =>
      assert c[0].path == ConfirmPassword;
    case Some(v) =>
      assert c == IssueIf(|v| < 1, Issue(ConfirmPassword, ConfirmationRequired));
      HasIssueIf(|v| < 1, Issue(ConfirmPassword, ConfirmationRequired), ConfirmPassword);
  }

  /** The confirmation's own checks together with the cross-field rule hold
      exactly when the confirmation rule does. */
  lemma ConfirmationIssuesMatchRule(form: FormValues, isEmail: string -> bool)
    ensures !HasIssue(FieldIssues(form, ConfirmPassword, isEmail) + RefineIssues(form), ConfirmPassword)
            <==> ConfirmationValid(form)
  {
    var c := FieldIssues(form, ConfirmPassword, isEmail);
    var r := RefineIssues(form);
    HasIssueAppend(c, r, ConfirmPassword);
    ConfirmationOwnChecks(form, isEmail);
    match Lookup(form, ConfirmPassword)
    case None =>
    case Some(v) =>
      match Lookup(form, Password)
      case None =>
        assert r == [];
      case Some(p) =>
        assert r == IssueIf(p != v, Issue(ConfirmPassword, PasswordsDoNotMatch));
        HasIssueIf(p != v, Issue(ConfirmPassword, PasswordsDoNotMatch), ConfirmPassword);
  }

  /** On the password page the country has not been chosen yet, so the
      library never runs the refinement: a long enough password with a
      different, non-empty confirmation raises no issue under either
      password field, while the intended schema reports the mismatch. */
  lemma MismatchUnreportedWithoutCountry(isEmail: string -> bool)
    ensures var form := map["email" := "a@b.com", "password" := "longenough1", "confirmPassword" := "different"];
            && !HasIssue(SchemaIssuesAsRun(form, isEmail), Password)
            && !HasIssue(SchemaIssuesAsRun(form, isEmail), ConfirmPassword)
            && HasIssue(SchemaIssues(form, isEmail), ConfirmPassword)
  {
  }

  /** The length rule is "at least 8": a password of exactly eight
      characters raises no password issue, although the message for a
      too-short password reads "Password must have more than 8 characters";
      one of seven characters raises exactly that check. */
  lemma PasswordLengthBoundary(form: FormValues, isEmail: string -> bool)
    requires Lookup(form, Password).Some?
    ensures |Lookup(form, Password).value| == 8 ==> !HasIssue(FieldIssues(form, Password, isEmail), Password)
    ensures |Lookup(form, Password).value| == 7 ==>
              FieldIssues(form, Password, isEmail) == [Issue(Password, PasswordTooShort)]
  {
  }
}

=== FILE: form_store.dfy ===
/**
 The wizard store: the current step index and the field values accumulated
 so far, with the three transitions the form component calls. Every
 transition is a total, pure function of the previous state.
 */
module FormStore {

  /** Field values keyed by field name. */
  type Values = map<string, string>

  /** The store's state. The step is a JavaScript number that only ever
      starts at 0 and moves by one, so it is modelled as a `nat`. */
  datatype WizardState = WizardState(step: nat, values: Values)

  /** The state a fresh store starts in: the first step, where going back
      changes nothing, and no values, so the first merge records exactly
      its payload. */
  function Initial(): (s: WizardState)
    ensures s.step == 0
    ensures DecreaseStep(s) == s
    ensures forall payload :: SetValues(s, payload).values == payload
  {
    WizardState(0, map[])
  }

  /** Advance one step. There is no upper bound on the step. */
  function IncreaseStep(s: WizardState): (r: WizardState)
    ensures r.step == s.step + 1
    ensures r.values == s.values
  {
    s.(step := s.step + 1)
  }

  /** Go back one step, staying at 0 when already there. */
  function DecreaseStep(s: WizardState): (r: WizardState)
    ensures r.step == s.step <==> s.step == 0
    ensures s.step != 0 ==> r.step + 1 == s.step
    ensures r.values == s.values
  {
    s.(step := if s.step != 0 then s.step - 1 else 0)
  }

  /** Shallow merge of a payload into the recorded values: keys of the
      payload take the payload's value, every other key is kept. */
  function SetValues(s: WizardState, payload: Values): (r: WizardState)
    ensures r.step == s.step
    ensures r.values.Keys == s.values.Keys + payload.Keys
    ensures forall k :: k in payload ==> r.values[k] == payload[k]
    ensures forall k :: k in s.values && k !in payload ==> r.values[k] == s.values[k]
  {
    s.(values := s.values + payload)
  }

  /** Retreating after advancing restores the original state. */
  lemma DecreaseUndoesIncrease(s: WizardState)
    ensures DecreaseStep(IncreaseStep(s)) == s
  {
  }

  /** Advancing after retreating restores the state exactly when the step
      was not already 0; at 0 the clamp makes the round trip land on 1. */
  lemma IncreaseUndoesDecrease(s: WizardState)
    ensures IncreaseStep(DecreaseStep(s)) == s <==> s.step != 0
    ensures s.step == 0 ==> IncreaseStep(DecreaseStep(s)).step == 1
  {
  }

  /** Merging an empty payload changes nothing. */
  lemma SetValuesEmpty(s: WizardState)
    ensures SetValues(s, map[]) == s
  {
    assert s.values + map[] == s.values;
  }

  /** Merging the same payload twice is the same as merging it once. */
  lemma SetValuesIdempotent(s: WizardState, payload: Values)
    ensures SetValues(SetValues(s, payload), payload) == SetValues(s, payload)
  {
    var once := SetValues(s, payload).values;
    assert once + payload == once;
  }

  /** Merging never loses a recorded key; a key keeps its value unless the
      payload overrides it. */
  lemma SetValuesKeepsKeys(s: WizardState, payload: Values, k: string)
    requires k in s.values
    ensures k in SetValues(s, payload).values
    ensures SetValues(s, payload).values[k] == (if k in payload then payload[k] else s.values[k])
  {
  }

  /** The step transitions and the merge act on disjoint parts of the
      state, so their order does not matter. */
  lemma StepAndMergeCommute(s: WizardState, payload: Values)
    ensures SetValues(IncreaseStep(s), payload) == IncreaseStep(SetValues(s, payload))
    ensures SetValues(DecreaseStep(s), payload) == DecreaseStep(SetValues(s, payload))
  {
  }
}
